=== FILE: README.md ===
# Multipong engine: roster and lifecycle model

This project models the core of the Multipong match engine
(`multipong/static/multipong.js`) in Dafny and proves properties of the model.
Multipong is a pong variant for any number of players. Players join one of two
sides, each holding a coloured paddle, on a 1x1 field. The modelled core covers:

- the **roster**: `newPlayer` (seat a joining player on the shorter side, draw a
  colour from the pool, give the player the next slot), `removePlayer` (return
  the colour, splice the player out, renumber the side), and `shiftPlayers`
  (recompute every paddle's x from the side length and slot);
- the **lifecycle**: `start`, `stop`, `restart`, the deferred ball launch that
  `start` schedules, and the `tick` that only advances a started match. A join
  that brings the seated count to two arms the match, and a removal that drops
  it below two stops it;
- **`Player.move`**, the bounded paddle step, and **`normalize`**, the angle fold.

Modules follow the source's concepts:

- `Config` holds the constants and the colour palette.
- `Players` holds the player record and `move`.
- `Games` holds the match record.
- `Angles` holds `normalize`.
- `Lifecycle` holds start/stop/restart/launch/tick.
- `Roster` holds join, removal, renumbering and paddle placement, written as the engine does them.
- `Session` drives a match by a sequence of events. It also states the invariant every reachable match keeps.

Representation choices:

- A match is an immutable `Game` value. Its rosters are sequences of `Player`
  records.
- A player's `id` stands in for the object identity that the engine's `indexOf`
  compares.
- A paddle's y is counted in integer hundredths of the field. The engine rounds y
  to two decimals after every step (`multipong.js:20`), so this is exact:
  - the field is 100;
  - a paddle is 20;
  - a step is 10;
  - the lowest paddle top is 80.
- The paddle x-coordinates and angles are `real`.
- The value of pi is a parameter `pi > 0`.
- The engine's random draws are parameters:
  - the colour index in `[0, |pool|)`;
  - the two launch samples in `[0, 1)`.
- The two-second delay before the launch is not modelled as time. The launch is
  a separate event that re-checks the started flag when it fires.

The invariant `Session.Inv` holds of every state reachable from a new match by
joins, departures, moves and launches. It says:

- identities are unique across both sides;
- every palette colour is held exactly once, either by the pool or by a seated player;
- the right side is numbered 1..N;
- every paddle is on the field;
- the match is armed exactly when at least two players are seated;
- every paddle sits at the x given by the placement formula.

Places where the code does something other than what its comments suggest, and
where the model follows the code:

- `normalize` (`multipong.js:259-266`) shifts by 2*pi at most once. It folds
  angles in (-3pi, 3pi] into (-pi, pi], but not every real: 4*pi comes back as
  2*pi (`Angles.NormalizeIsSingleShift`).
- A left removal renumbers the remaining left players -1..-N (`multipong.js:232`),
  while joins number the left side 1..N. The placement formula then puts those
  paddles in (0.25, 0.5), inward of the quarter field
  (`Roster.LeftRemovalMovesPaddlesInward`). This is kept as written, so the left
  side's slot numbering is not part of the invariant.

The launch angle (`multipong.js:61-62`) lies in [3pi/4, 5pi/4) when turned, as
the comment at `:60` says. That range is outside the (-pi, pi] that `normalize`
aims for, and the model keeps it (`Lifecycle.LaunchMayLeaveNormalRange`).

## Model

| member | source | states |
|---|---|---|
| `Angles.Normalize` | multipong/static/multipong.js:259-266 | the result is the angle or the angle shifted once by 2*pi; angles already in (-pi, pi] are unchanged; angles in (-3pi, 3pi] land in (-pi, pi] |
| `Angles.NormalizeIdempotent` | multipong/static/multipong.js:259-266 | on (-3pi, 3pi], normalising twice is normalising once |
| `Angles.NormalizeIsSingleShift` | multipong/static/multipong.js:258-266 | the fold is not total: 4*pi normalises to 2*pi, outside (-pi, pi] |
| `Players.NewPlayer` | multipong/static/multipong.js:2-10 | a new player carries its name and colour, slot 0 and x 0, and its paddle at the top edge |
| `Players.Move` | multipong/static/multipong.js:14-22 | only y changes. A paddle on the field stays on it. Up moves by exactly 10 iff y >= 10, else nothing changes. Down moves by exactly 10 iff y <= 70, else nothing changes. Any other input changes nothing |
| `Players.MoveUndo` | multipong/static/multipong.js:14-22 | a step that happened is undone by the opposite input |
| `Lifecycle.Start` | multipong/static/multipong.js:53-54 | the match is armed; rosters, pool, scores and ball are unchanged |
| `Lifecycle.Stop` | multipong/static/multipong.js:67-72 | the match is disarmed and the ball parked still in the centre; rosters, pool and scores are unchanged |
| `Lifecycle.Restart` | multipong/static/multipong.js:74-77 | the match is armed with the ball parked still in the centre; rosters, pool and scores are unchanged |
| `Lifecycle.LaunchAngleCovers` | multipong/static/multipong.js:60-62 | every angle in [-pi/4, pi/4) is drawn by some first sample in [0, 1), and the same sample gives that angle plus pi when the ball is turned |
| `Lifecycle.LaunchAngle` | multipong/static/multipong.js:60-62 | the launch angle lies in [-pi/4, pi/4) when the second sample is at least 0.5, and in [3pi/4, 5pi/4) otherwise |
| `Lifecycle.Launch` | multipong/static/multipong.js:57-63 | a disarmed match is left exactly as it is. An armed one gets speed 0.005 and a direction in [-pi/4, pi/4) or [3pi/4, 5pi/4). Nothing else changes |
| `Lifecycle.Tick` | multipong/static/multipong.js:81-83 | a disarmed match is unchanged; an armed one takes one physics step |
| `Lifecycle.StopCancelsLaunch` | multipong/static/multipong.js:57-72 | a launch firing after a stop changes nothing |
| `Lifecycle.RestartThenLaunch` | multipong/static/multipong.js:57-77 | after a restart the launch puts the ball in flight from the centre at speed 0.005 |
| `Lifecycle.StopRestartIdempotent` | multipong/static/multipong.js:67-77 | stopping twice is stopping once; restarting twice is restarting once |
| `Lifecycle.LaunchMayLeaveNormalRange` | multipong/static/multipong.js:60-62 | samples 0.75 and 0 give the launch angle 9pi/8, which is above pi |
| `Roster.SpliceOne` | multipong/static/multipong.js:224-225 | removing one element at a start index, array-splice style: an in-range start drops exactly that element and keeps the rest in order; -1 drops the last element; a start past the end drops nothing |
| `Roster.IndexOf` | multipong/static/multipong.js:221-224 | the result is -1 exactly when no player has the identity, and otherwise the first index holding it |
| `Roster.IndexOfDistinct` | multipong/static/multipong.js:221 | with distinct identities the lookup of a seated player returns that player's index |
| `Roster.IndexOfMissing` | multipong/static/multipong.js:223-224 | the lookup of an identity not on a side returns -1 |
| `Roster.SlottedDepths` | multipong/static/multipong.js:246-249 | on a side numbered 1..N every depth lies strictly in (0, 0.25) and strictly decreases from slot 1 outwards |
| `Roster.PlaceLeft` | multipong/static/multipong.js:246-249 | only x changes, and each left x is the depth of the player's slot. On a side numbered 1..N, every x lies in (0, 0.25) and x strictly decreases along the roster |
| `Roster.PlaceRight` | multipong/static/multipong.js:250-253 | only x changes, and each right x is one minus the depth. On a side numbered 1..N, every x lies in (0.75, 1) and x strictly increases along the roster |
| `Roster.ShiftPlayers` | multipong/static/multipong.js:244-254 | both sides are placed; apart from x, every player and every other field of the match is unchanged |
| `Roster.RenumberRight` | multipong/static/multipong.js:226-228 | the right side becomes numbered 1..N; nothing but the positions changes |
| `Roster.RenumberLeft` | multipong/static/multipong.js:231-233 | the left side becomes numbered -1..-N; nothing but the positions changes |
| `Games.Initial` | multipong/static/multipong.js:36-49 | a new match seats nobody, holds the full palette in the pool, is disarmed with both scores 0, and has the ball parked in the centre with direction 0 |
| `Roster.Join` | multipong/static/multipong.js:193-215 | the new player goes left iff the left side is not longer. It takes the drawn colour and slot length+1 on that side, and the other side is unchanged. The pool loses exactly the drawn colour and keeps the order of the rest. Both sides are placed. The match is armed iff it was armed or now seats two or more. Scores and ball are unchanged |
| `Roster.RemovePlayer` | multipong/static/multipong.js:218-241 | the removed player's colour is appended to the pool. Both sides are placed. The match stays armed only if it was armed and still seats two or more. A stop parks the ball; otherwise the ball is untouched. Scores are unchanged |
| `Roster.RemoveFromLeft` | multipong/static/multipong.js:229-234 | removing a left player: it is gone from the left, the others keep their order and all but slot and x, the left is numbered -1..-N, the right side is untouched, and one fewer player is seated |
| `Roster.RemoveFromRight` | multipong/static/multipong.js:223-228 | removing a right player: it is gone from the right, the others keep their order and all but slot and x, the right is numbered 1..N, the left side is untouched, and one fewer player is seated |
| `Roster.NegSlottedInward` | multipong/static/multipong.js:247-248 | a left side numbered -1..-N and placed by the formula has every paddle in (0.25, 0.5) |
| `Roster.LeftRemovalMovesPaddlesInward` | multipong/static/multipong.js:229-236 | after a left removal every remaining left paddle lies in (0.25, 0.5) |
| `Roster.RemoveUnknownDropsLastRight` | multipong/static/multipong.js:220-225 | removing a player seated on neither side drops the last right player instead, and still adds the unknown player's colour to the pool |
| `Session.Leave` | multipong/static/multipong.js:218-241 | a departure is refused exactly when the identity is seated on neither side. Otherwise the player removed is the first record with that identity, on the left if it is seated there. The rest of its side keeps its order, and the other side is unchanged. Its colour is appended to the pool, so the colour stock is unchanged. With unique identities, the identity is then seated nowhere. The match is stopped, with the ball parked, when fewer than two remain |
| `Session.LeaveAt` | multipong/static/multipong.js:218-234 | removing the player found at an index returns its colour to the pool, so the stock is unchanged; the other side is untouched |
| `Session.MoveSeated` | multipong/static/multipong.js:14-22 | a move is refused exactly when the identity is seated on neither side. Otherwise the first record with that identity, on the left if it is seated there, becomes `Players.Move` of itself. Every other record on both sides, the pool and the flag are unchanged, and paddles stay on the field |
| `Session.Step` | multipong/static/multipong.js:193-241 | a join is refused exactly when the drawn index is out of the pool or the identity is already seated; a departure or move exactly when the identity is seated on neither side; a launch exactly when a sample lies outside [0, 1). A join adds one seated player. A departure removes one, keeps the colour stock, and leaves the match armed only if it was armed and two or more remain. A move keeps the count, the pool, the flag and every seat but paddle y. A launch leaves rosters, pool, scores and flag unchanged. Scores never change |
| `Session.Run` | multipong/static/multipong.js:193-241 | running no events is the identity, and no run changes the scores |
| `Session.InitialInv` | multipong/static/multipong.js:36-49 | a new match satisfies the invariant and has balanced sides |
| `Session.JoinPreservesInv` | multipong/static/multipong.js:193-215 | seating a fresh identity keeps the invariant |
| `Session.LeavePreservesInv` | multipong/static/multipong.js:218-241 | a granted departure keeps the invariant |
| `Session.MovePreservesInv` | multipong/static/multipong.js:14-22 | a granted move keeps the invariant |
| `Session.StepPreservesInv` | multipong/static/multipong.js:193-241 | every granted event, launches included, keeps the invariant |
| `Session.RunPreservesInv` | multipong/static/multipong.js:193-254 | every state a run of events reaches from an invariant state keeps the invariant |
| `Session.ReachableInv` | multipong/static/multipong.js:36-49 | every state reachable from a new match satisfies the invariant |
| `Session.JoinKeepsBalance` | multipong/static/multipong.js:200-206 | a join keeps the left side equal to the right or one longer |
| `Session.JoinsKeepBalance` | multipong/static/multipong.js:192-206 | any run of joins alone keeps the sides balanced |
| `Session.JoinThenLeave` | multipong/static/multipong.js:193-241 | when a fresh identity joins and then leaves, the departure is granted. Each side gets back the same players in the same order with the same colours, the pool gets back the same colours up to order, and the armed flag is restored |
| `Session.LeaveLastLeft` | multipong/static/multipong.js:218-234 | the departure of the last left player is granted. It leaves the other left players in order with their colours, does not touch the right side, and appends that player's colour to the pool |
| `Session.LeaveLastRight` | multipong/static/multipong.js:218-234 | the departure of the last right player is granted. It leaves the other right players in order with their colours, does not touch the left side, and appends that player's colour to the pool |
| `Session.PaletteCount` | multipong/static/multipong.js:38 | every palette colour occurs at most once in the palette |
| `Session.PoolDisjoint` | multipong/static/multipong.js:195-220 | under colour conservation, no colour is both in the pool and held by a seated player, no colour is held on both sides, and none is held twice on one side |
| `Session.RemoveUnknownBreaksColours` | multipong/static/multipong.js:220-225 | removing an unknown player whose colour differs from the last right player's breaks colour conservation |

## Left out

- Ball physics is not modelled: `updateBallPosition` (`multipong.js:97-141`), `collision` (`:146-159`) and `deflectBall` (`:167-188`) need cosine, sine and IEEE floating point. `Tick` takes the physics step as a function parameter. Because scores only change there, scores are constant in this model.
- `paddleThickness` and `ballRadius` (`:32-33`) are used only by the ball physics, and `title` (`:30`) is used nowhere in the engine, so none of them is modelled.
- The two-second `setTimeout` (`:57-64`) is not modelled as time. The launch is an explicit event.
- `Math.random` (`:61-62`, `:195`) is replaced by parameters. `Math.PI` is the parameter `pi`.
- `state()` (`:86-92`) and `createGame` (`:271-273`) are left out. One is a projection of the match record and the other a constructor wrapper.
- Paddle x, the ball's position and speed, and all angles are `real`, not IEEE doubles, so rounding in the placement formula, the launch angle and `normalize` is not modelled.
- Paddle y is not modelled as a float. The model keeps integer hundredths, where the rounding at `:20` is exact.
- Players.Move: the input is the integer vertical component of the motion object. The engine compares that component with loose equality at `:15-16`, so `true`, `"1"` and `"-1"` also move the paddle, as 1, 1 and -1. Such coerced non-numeric inputs are not modelled; a caller would pass the integer they coerce to.
- Roster.Join: requires a drawn index inside the pool. With an empty pool the engine seats a player whose colour is undefined; `Session.Step` refuses that join instead.
- Roster.RemovePlayer: only the right side's renumbering is part of the invariant. The left side's -1..-N numbering is described by `Roster.RemoveFromLeft` and `Roster.LeftRemovalMovesPaddlesInward` instead.
- Session.Step: refuses a join for an identity that is already seated. In the engine every join builds a new player object, so that case cannot arise there.
- A launch event may fire with no start pending, and more than once. In the engine each `start()` (`:53-65`) schedules exactly one launch, so the model admits more event orders than the engine produces. The engine can also fire twice: a restart inside the two-second window leaves two launches pending.

## Findings

| source | as written | input that shows it | evidently intended | confidence | as-written member | corrected member |
|---|---|---|---|---|---|---|
| multipong/static/multipong.js:221-225 | `removePlayer` for a player on neither side gets index -1 from the right-side lookup and splices at -1 | rosters left [A], right [B, C] and a player D seated nowhere: C is removed, and D's colour is added to the pool while C's is lost | a player that is not seated is refused and no seated player is removed | not executed; follows from the array-splice semantics of a negative start | `Roster.RemovePlayer` (shown by `Roster.RemoveUnknownDropsLastRight` and `Session.RemoveUnknownBreaksColours`) | `Session.Leave` (refuses unseated identities; `Session.LeavePreservesInv` and `Session.RunPreservesInv` prove it keeps the invariant) |

=== FILE: angles.dfy ===
/**
 Angle normalisation. The engine keeps ball directions in radians and folds an
 angle back towards (-pi, pi] with a single shift of 2*pi. The value of pi is a
 parameter: nothing below depends on its digits, only on it being positive.
 */
module Angles {

  /** The half-open interval (-pi, pi] that normalisation aims for. */
  predicate Normal(pi: real, a: real) {
    -pi < a <= pi
  }

  /** One shift by 2*pi towards (-pi, pi]; never more than one. */
  function Normalize(pi: real, angle: real): (r: real)
    requires pi > 0.0
    ensures r == angle || r == angle - 2.0 * pi || r == angle + 2.0 * pi
    ensures Normal(pi, angle) ==> r == angle
    ensures -3.0 * pi < angle <= 3.0 * pi ==> Normal(pi, r)
  {
    if angle > pi then angle - 2.0 * pi
    else if angle <= -pi then angle + 2.0 * pi
    else angle
  }

  /** On the inputs it can fold, normalising twice is normalising once. */
  lemma NormalizeIdempotent(pi: real, angle: real)
    requires pi > 0.0
    requires -3.0 * pi < angle <= 3.0 * pi
    ensures Normalize(pi, Normalize(pi, angle)) == Normalize(pi, angle)
  {
  }

  /** A single shift cannot fold every angle: 4*pi comes back as 2*pi, outside (-pi, pi]. */
  lemma NormalizeIsSingleShift(pi: real)
    requires pi > 0.0
    ensures Normalize(pi, 4.0 * pi) == 2.0 * pi
    ensures !Normal(pi, Normalize(pi, 4.0 * pi))
  {
  }
}

=== FILE: config.dfy ===
/**
 The fixed configuration of a Multipong match. Everything lives in a 1x1 field;
 paddle heights and vertical steps are counted in integer hundredths of the field,
 because the engine rounds a paddle's y to two decimals after every step.
 */
module Config {

  /** The field height, in hundredths. */
  const FieldSize: int := 100

  /** The paddle's vertical extent (0.2 of the field), in hundredths. */
  const PaddleWidth: int := 20

  /** How far one move input shifts a paddle (0.1 of the field), in hundredths. */
  const MoveDistance: int := 10

  /** The largest paddle top that keeps the whole paddle on the field. */
  const MaxPaddleY: int := FieldSize - PaddleWidth

  /** The ball speed set by the deferred launch. */
  const LaunchSpeed: real := 0.005

  /** The centre of the field, where a stopped ball is parked. */
  const Centre: real := 0.5

  /** The colours a new match starts with, one per possible seated player. */
  const Palette: seq<string> := ["#FF0000", "#00FF00", "#0000FF", "#FFFF00", "#00FFFF", "#FF00FF"]
}

=== FILE: games.dfy ===
/**
 The state of one Multipong match.
 */
module Games {
  import opened Config
  import opened Players

  /**
   A match. `left` and `right` are the rosters in slot order; `pool` holds the
   colours no seated player holds; the ball's direction is an angle in radians,
   counter-clockwise from the positive x axis.
   */
  datatype Game = Game(
    left: seq<Player>,
    right: seq<Player>,
    pool: seq<string>,
    started: bool,
    leftScore: nat,
    rightScore: nat,
    ballX: real,
    ballY: real,
    ballSpeed: real,
    ballDirection: real)

  /** A match as constructed: no players, full palette, ball parked and still. */
  function Initial(): (g: Game)
    ensures Seated(g) == 0 && g.pool == Palette && !g.started
    ensures g.leftScore == 0 && g.rightScore == 0
    ensures Parked(g) && g.ballDirection == 0.0
  {
    Game([], [], Palette, false, 0, 0, Centre, Centre, 0.0, 0.0)
  }

  /** The number of seated players on both sides. */
  function Seated(g: Game): nat {
    |g.left| + |g.right|
  }

  /** The ball is at rest in the centre of the field. */
  predicate Parked(g: Game) {
    g.ballSpeed == 0.0 && g.ballX == Centre && g.ballY == Centre
  }

  /** Two matches agree on everything but the ball and the started flag. */
  predicate SameTable(a: Game, b: Game) {
    a.left == b.left && a.right == b.right && a.pool == b.pool
    && a.leftScore == b.leftScore && a.rightScore == b.rightScore
  }
}

=== FILE: lifecycle.dfy ===
/**
 The match lifecycle: arming, stopping, re-arming, the deferred ball launch and
 the gated clock tick. The two-second delay between arming and launch is not
 modelled as time: the launch is an explicit event that may fire at any later
 point and re-checks the started flag when it does.
 */
module Lifecycle {
  import opened Config
  import opened Games

  /** Arm the match. The deferred launch it schedules is the separate `Launch` event. */
  function Start(g: Game): (r: Game)
    ensures r.started
    ensures SameTable(r, g)
    ensures r.ballX == g.ballX && r.ballY == g.ballY
    ensures r.ballSpeed == g.ballSpeed && r.ballDirection == g.ballDirection
  {
    g.(started := true)
  }

  /** Disarm the match and park the ball in the centre; scores and rosters stay. */
  function Stop(g: Game): (r: Game)
    ensures !r.started && Parked(r)
    ensures SameTable(r, g)
    ensures r.ballDirection == g.ballDirection
  {
    g.(started := false, ballSpeed := 0.0, ballX := Centre, ballY := Centre)
  }

  /** Stop, then arm again: the ball is parked and a fresh launch is pending. */
  function Restart(g: Game): (r: Game)
    ensures r.started && Parked(r)
    ensures SameTable(r, g)
    ensures r.ballDirection == g.ballDirection
  {
    Start(Stop(g))
  }

  /**
   The launch angle drawn from two uniform samples `u1`, `u2` in [0, 1): a first
   angle in [-pi/4, pi/4), turned towards the left goal by pi when `u2` < 0.5.
   The result is not folded back into (-pi, pi].
   */
  function LaunchAngle(pi: real, u1: real, u2: real): (a: real)
    requires pi > 0.0
    requires 0.0 <= u1 < 1.0 && 0.0 <= u2 < 1.0
    ensures u2 >= 0.5 ==> -pi / 4.0 <= a < pi / 4.0
    ensures u2 < 0.5 ==> 3.0 * pi / 4.0 <= a < 5.0 * pi / 4.0
  {
    var s := u1 * pi;
    ScaleBelow(u1, pi);
    var a0 := s / 2.0 - pi / 4.0;
    if u2 < 0.5 then a0 + pi else a0
  }

  /**
   Every angle of the unturned range is drawn by some first sample, and the same
   sample gives the turned angle pi further on: the angle follows `u1`, it is not
   merely somewhere in its range.
   */
  lemma LaunchAngleCovers(pi: real, a: real)
    requires pi > 0.0 && -pi / 4.0 <= a < pi / 4.0
    ensures exists u1 :: 0.0 <= u1 < 1.0 && LaunchAngle(pi, u1, 0.5) == a && LaunchAngle(pi, u1, 0.0) == a + pi
  {
    var x := 2.0 * (a + pi / 4.0);
    var u1 := x / pi;
    FractionOf(x, pi);
    assert LaunchAngle(pi, u1, 0.5) == a;
  }

  /** A quantity in [0, q) divided by q is a fraction in [0, 1) that gives it back. */
  lemma FractionOf(x: real, q: real)
    requires q > 0.0 && 0.0 <= x < q
    ensures 0.0 <= x / q < 1.0 && x / q * q == x
  {
    var f := x / q;
    assert f * q == x;
    assert (1.0 - f) * q == q - x;
    PositiveFactor(1.0 - f, q);
    if x > 0.0 {
      PositiveFactor(f, q);
    }
  }

  /** A product with a positive factor is positive only if the other factor is. */
  lemma PositiveFactor(x: real, y: real)
    requires y > 0.0 && x * y > 0.0
    ensures x > 0.0
  {
  }

  /** A fraction in [0, 1) of a positive quantity lies in [0, that quantity). */
  lemma ScaleBelow(u: real, q: real)
    requires 0.0 <= u < 1.0 && q > 0.0
    ensures 0.0 <= u * q < q
  {
    assert q - u * q == (1.0 - u) * q;
  }

  /**
   The deferred launch firing. It sets the ball moving only if the match is still
   armed; after a stop it changes nothing.
   */
  function Launch(g: Game, pi: real, u1: real, u2: real): (r: Game)
    requires pi > 0.0
    requires 0.0 <= u1 < 1.0 && 0.0 <= u2 < 1.0
    ensures !g.started ==> r == g
    ensures g.started ==> r.ballSpeed == LaunchSpeed
    ensures g.started ==> (-pi / 4.0 <= r.ballDirection < pi / 4.0
                           || 3.0 * pi / 4.0 <= r.ballDirection < 5.0 * pi / 4.0)
    ensures SameTable(r, g) && r.started == g.started
    ensures r.ballX == g.ballX && r.ballY == g.ballY
  {
    if g.started then
      g.(ballSpeed := LaunchSpeed, ballDirection := LaunchAngle(pi, u1, u2))
    else
      g
  }

  /**
   One clock tick. `advance` stands for the ball-physics step, which is not part
   of this model; the tick runs it only while the match is armed.
   */
  function Tick(g: Game, advance: Game -> Game): (r: Game)
    ensures !g.started ==> r == g
    ensures g.started ==> r == advance(g)
  {
    if g.started then advance(g) else g
  }

  /** A stop issued before the deferred launch fires cancels it. */
  lemma StopCancelsLaunch(g: Game, pi: real, u1: real, u2: real)
    requires pi > 0.0
    requires 0.0 <= u1 < 1.0 && 0.0 <= u2 < 1.0
    ensures Launch(Stop(g), pi, u1, u2) == Stop(g)
  {
  }

  /** After a restart the pending launch does fire and puts the ball in flight from the centre. */
  lemma RestartThenLaunch(g: Game, pi: real, u1: real, u2: real)
    requires pi > 0.0
    requires 0.0 <= u1 < 1.0 && 0.0 <= u2 < 1.0
    ensures var r := Launch(Restart(g), pi, u1, u2);
      r.started && r.ballSpeed == LaunchSpeed && r.ballX == Centre && r.ballY == Centre
  {
  }

  /** Stopping and restarting are idempotent. */
  lemma StopRestartIdempotent(g: Game)
    ensures Stop(Stop(g)) == Stop(g)
    ensures Restart(Restart(g)) == Restart(g)
  {
  }

  /**
   The launch angle may lie above pi: for instance u1 = 0.75 and u2 = 0 give
   9*pi/8, so a freshly launched ball's direction is not always in (-pi, pi].
   */
  lemma LaunchMayLeaveNormalRange(pi: real)
    requires pi > 0.0
    ensures LaunchAngle(pi, 0.75, 0.0) == 9.0 * pi / 8.0
    ensures LaunchAngle(pi, 0.75, 0.0) > pi
  {
  }
}

=== FILE: players.dfy ===
/**
 The player entity: a seated participant and the rule that moves its paddle.
 */
module Players {
  import opened Config

  /**
   A player. `id` stands for the object identity the engine compares players by;
   `position` is the signed slot number on its side; `x` is the paddle's horizontal
   coordinate; `y` is the paddle's top edge in hundredths of the field.
   */
  datatype Player = Player(id: nat, name: string, color: string, position: int, x: real, y: int)

  /** A freshly constructed player: not yet placed, paddle at the top edge. */
  function NewPlayer(id: nat, name: string, color: string): (p: Player)
    ensures p.id == id && p.name == name && p.color == color
    ensures p.position == 0 && p.x == 0.0 && p.y == 0
  {
    Player(id, name, color, 0, 0.0, 0)
  }

  /** The paddle lies wholly inside the field. */
  predicate OnField(y: int) {
    0 <= y <= MaxPaddleY
  }

  /**
   A move input: `motion` is the vertical component of the input, -1 for up and
   1 for down. The paddle steps by MoveDistance unless that would pass an edge; any
   other input, and an input against an edge, changes nothing. The rounding to two
   decimals the engine applies after the step is exact on hundredths.
   */
  function Move(p: Player, motion: int): (r: Player)
    ensures r.(y := p.y) == p
    ensures OnField(p.y) ==> OnField(r.y)
    ensures motion != 1 && motion != -1 ==> r == p
    ensures motion == -1 ==> (r.y == p.y - MoveDistance <==> p.y >= MoveDistance)
    ensures motion == -1 ==> (r == p <==> p.y < MoveDistance)
    ensures motion == 1 ==> (r.y == p.y + MoveDistance <==> p.y <= MaxPaddleY - MoveDistance)
    ensures motion == 1 ==> (r == p <==> p.y > MaxPaddleY - MoveDistance)
  {
    if (motion == -1 && p.y >= MoveDistance) || (motion == 1 && p.y <= FieldSize - MoveDistance - PaddleWidth) then
      p.(y := p.y + MoveDistance * motion)
    else
      p
  }

  /** A step that happened can be undone by the opposite input. */
  lemma MoveUndo(p: Player, motion: int)
    requires OnField(p.y)
    requires Move(p, motion) != p
    ensures Move(Move(p, motion), -motion) == p
  {
  }
}

=== FILE: roster.dfy ===
/**
 The roster manager: seating a joining player, unseating a leaving one, slot
 numbering, paddle x-coordinates and the colour pool, together with the
 automatic arming and disarming of the match when the seated count crosses two.
 */
module Roster {
  import opened Config
  import opened Players
  import opened Games
  import opened Lifecycle

  // ---------------------------------------------------------------------------
  // Sequence operations with the engine's array semantics

  /**
   Removal of one element at `start` with array-splice semantics: a negative
   start counts back from the end, a start past the end removes nothing.
   */
  function SpliceOne<T>(s: seq<T>, start: int): (r: seq<T>)
    ensures 0 <= start < |s| ==> |r| == |s| - 1 && r[..start] == s[..start] && r[start..] == s[start + 1..]
    ensures start == -1 && |s| > 0 ==> r == s[..|s| - 1]
    ensures start >= |s| ==> r == s
  {
    var k := if start >= 0 then start else if |s| + start >= 0 then |s| + start else 0;
    if k < |s| then
      var r := s[..k] + s[k + 1..];
      assert r[..k] == s[..k];
      assert r[k..] == s[k + 1..];
      r
    else
      s
  }

  /** The first index holding the player with identity `id`, or -1 when there is none. */
  function IndexOf(s: seq<Player>, id: nat): (i: int)
    ensures -1 <= i < |s|
    ensures 0 <= i ==> s[i].id == id && forall j :: 0 <= j < i ==> s[j].id != id
    ensures i < 0 <==> forall j :: 0 <= j < |s| ==> s[j].id != id
  {
    if |s| == 0 then -1
    else if s[0].id == id then 0
    else
      var k := IndexOf(s[1..], id);
      if k < 0 then -1 else k + 1
  }

  /** The identities of a roster, in roster order. */
  function Ids(s: seq<Player>): (r: seq<nat>)
    ensures |r| == |s|
  {
    seq(|s|, i requires 0 <= i < |s| => s[i].id)
  }

  /** The colours held by a roster, in roster order. */
  function Colours(s: seq<Player>): (r: seq<string>)
    ensures |r| == |s|
  {
    seq(|s|, i requires 0 <= i < |s| => s[i].color)
  }

  /** No identity occurs twice in the roster. */
  predicate DistinctIds(s: seq<Player>) {
    forall i, j :: 0 <= i < j < |s| ==> s[i].id != s[j].id
  }

  /** The roster's positions are exactly 1..N in roster order. */
  predicate Slotted(s: seq<Player>) {
    forall i :: 0 <= i < |s| ==> s[i].position == i + 1
  }

  /** The roster's positions are exactly -1..-N in roster order. */
  predicate NegSlotted(s: seq<Player>) {
    forall i :: 0 <= i < |s| ==> s[i].position == -i - 1
  }

  /** A roster with every paddle's x forgotten: who sits where, with which colour and y. */
  function Unplaced(s: seq<Player>): (r: seq<Player>)
    ensures |r| == |s|
  {
    seq(|s|, i requires 0 <= i < |s| => s[i].(x := 0.0))
  }

  /** Who sits on a side, in order, with name, colour and paddle y; slot numbers and x forgotten. */
  function Occupants(s: seq<Player>): (r: seq<Player>)
    ensures |r| == |s|
  {
    seq(|s|, i requires 0 <= i < |s| => s[i].(position := 0, x := 0.0))
  }

  // ---------------------------------------------------------------------------
  // Paddle x-coordinates

  /**
   How far from its goal line a paddle at `position` sits on a side of `n`
   players, as a fraction of the field: a quarter of the field divided evenly,
   slot 1 innermost.
   */
  function Depth(n: nat, position: int): real {
    0.25 * ((n - position + 1) as real) / ((n + 1) as real)
  }

  /** Every left paddle sits at its depth from the left goal line. */
  predicate PlacedLeft(s: seq<Player>) {
    forall i :: 0 <= i < |s| ==> s[i].x == Depth(|s|, s[i].position)
  }

  /** Every right paddle sits at its depth from the right goal line. */
  predicate PlacedRight(s: seq<Player>) {
    forall i :: 0 <= i < |s| ==> s[i].x == 1.0 - Depth(|s|, s[i].position)
  }

  /** k quarters of a d-th lie strictly inside the quarter field when 0 < k < d. */
  lemma QuarterBounds(k: int, d: int)
    requires 0 < k < d
    ensures 0.0 < 0.25 * (k as real) / (d as real) < 0.25
  {
    var kr, dr := k as real, d as real;
    var q := 0.25 * kr / dr;
    assert q * dr == 0.25 * kr;
    PositiveFactor(q, dr);
    assert (0.25 - q) * dr == 0.25 * (dr - kr);
    PositiveFactor(0.25 - q, dr);
  }

  /** k quarters of a d-th lie strictly between a quarter and a half when d < k < 2d. */
  lemma QuarterToHalf(k: int, d: int)
    requires 0 < d < k < 2 * d
    ensures 0.25 < 0.25 * (k as real) / (d as real) < 0.5
  {
    var kr, dr := k as real, d as real;
    var q := 0.25 * kr / dr;
    assert q * dr == 0.25 * kr;
    assert (q - 0.25) * dr == 0.25 * (kr - dr);
    PositiveFactor(q - 0.25, dr);
    assert (0.5 - q) * dr == 0.25 * (2.0 * dr - kr);
    PositiveFactor(0.5 - q, dr);
  }

  /** The fraction grows with its numerator. */
  lemma QuarterMonotone(k1: int, k2: int, d: int)
    requires k1 < k2 && 0 < d
    ensures 0.25 * (k1 as real) / (d as real) < 0.25 * (k2 as real) / (d as real)
  {
    var dr := d as real;
    var q1 := 0.25 * (k1 as real) / dr;
    var q2 := 0.25 * (k2 as real) / dr;
    assert q1 * dr == 0.25 * (k1 as real);
    assert q2 * dr == 0.25 * (k2 as real);
    assert (q2 - q1) * dr == 0.25 * ((k2 - k1) as real);
    PositiveFactor(q2 - q1, dr);
  }

  /** On a side slotted 1..N every depth lies in (0, 0.25), shrinking outwards. */
  lemma SlottedDepths(s: seq<Player>)
    requires Slotted(s)
    ensures forall i :: 0 <= i < |s| ==> 0.0 < Depth(|s|, s[i].position) < 0.25
    ensures forall i, j :: 0 <= i < j < |s| ==> Depth(|s|, s[j].position) < Depth(|s|, s[i].position)
  {
    forall i | 0 <= i < |s|
      ensures 0.0 < Depth(|s|, s[i].position) < 0.25
    {
      QuarterBounds(|s| - i, |s| + 1);
    }
    forall i, j | 0 <= i < j < |s|
      ensures Depth(|s|, s[j].position) < Depth(|s|, s[i].position)
    {
      QuarterMonotone(|s| - j, |s| - i, |s| + 1);
    }
  }

  /** Recompute the left paddles' x from the side's length and each slot. */
  function PlaceLeft(s: seq<Player>): (r: seq<Player>)
    ensures |r| == |s| && PlacedLeft(r)
    ensures forall i :: 0 <= i < |s| ==> r[i] == s[i].(x := r[i].x)
    ensures Slotted(s) ==> forall i :: 0 <= i < |s| ==> 0.0 < r[i].x < 0.25
    ensures Slotted(s) ==> forall i, j :: 0 <= i < j < |s| ==> r[j].x < r[i].x
  {
    var r := seq(|s|, i requires 0 <= i < |s| => s[i].(x := Depth(|s|, s[i].position)));
    if Slotted(s) then SlottedDepths(s); r else r
  }

  /** Recompute the right paddles' x, mirrored about the field's vertical centre line. */
  function PlaceRight(s: seq<Player>): (r: seq<Player>)
    ensures |r| == |s| && PlacedRight(r)
    ensures forall i :: 0 <= i < |s| ==> r[i] == s[i].(x := r[i].x)
    ensures Slotted(s) ==> forall i :: 0 <= i < |s| ==> 0.75 < r[i].x < 1.0
    ensures Slotted(s) ==> forall i, j :: 0 <= i < j < |s| ==> r[i].x < r[j].x
  {
    var r := seq(|s|, i requires 0 <= i < |s| => s[i].(x := 1.0 - Depth(|s|, s[i].position)));
    if Slotted(s) then SlottedDepths(s); r else r
  }

  /** Recompute every paddle's x on both sides; nothing else changes. */
  function ShiftPlayers(g: Game): (r: Game)
    ensures PlacedLeft(r.left) && PlacedRight(r.right)
    ensures Unplaced(r.left) == Unplaced(g.left) && Unplaced(r.right) == Unplaced(g.right)
    ensures r.(left := g.left, right := g.right) == g
  {
    var r := g.(left := PlaceLeft(g.left), right := PlaceRight(g.right));
    assert Unplaced(r.left) == Unplaced(g.left);
    assert Unplaced(r.right) == Unplaced(g.right);
    r
  }

  // ---------------------------------------------------------------------------
  // Slot numbering after a removal

  /** Number the right side 1..N in roster order; nothing but the positions changes. */
  function RenumberRight(s: seq<Player>): (r: seq<Player>)
    ensures |r| == |s| && Slotted(r)
    ensures forall i :: 0 <= i < |s| ==> r[i] == s[i].(position := r[i].position)
  {
    seq(|s|, i requires 0 <= i < |s| => s[i].(position := i + 1))
  }

  /** Number the left side -1..-N in roster order; nothing but the positions changes. */
  function RenumberLeft(s: seq<Player>): (r: seq<Player>)
    ensures |r| == |s| && NegSlotted(r)
    ensures forall i :: 0 <= i < |s| ==> r[i] == s[i].(position := r[i].position)
  {
    seq(|s|, i requires 0 <= i < |s| => s[i].(position := -i - 1))
  }

  // ---------------------------------------------------------------------------
  // Join

  /**
   Seat a new player. `index` is the colour drawn from the pool (the engine
   draws it uniformly at random). The player goes to the left unless the left
   side is already longer, takes the next slot there, every paddle is placed
   again, and the match is armed once two players are seated.
   */
  function Join(g: Game, id: nat, name: string, index: nat): (r: Game)
    requires index < |g.pool|
    ensures |g.left| <= |g.right| ==>
      && Unplaced(r.left) == Unplaced(g.left) + [Player(id, name, g.pool[index], |g.left| + 1, 0.0, 0)]
      && Unplaced(r.right) == Unplaced(g.right)
    ensures |g.left| > |g.right| ==>
      && Unplaced(r.right) == Unplaced(g.right) + [Player(id, name, g.pool[index], |g.right| + 1, 0.0, 0)]
      && Unplaced(r.left) == Unplaced(g.left)
    ensures PlacedLeft(r.left) && PlacedRight(r.right)
    ensures Seated(r) == Seated(g) + 1
    ensures |r.pool| == |g.pool| - 1
    ensures multiset(r.pool) + multiset{g.pool[index]} == multiset(g.pool)
    ensures r.pool == g.pool[..index] + g.pool[index + 1..]
    ensures r.started == (g.started || Seated(r) >= 2)
    ensures r.leftScore == g.leftScore && r.rightScore == g.rightScore
    ensures r.ballX == g.ballX && r.ballY == g.ballY
    ensures r.ballSpeed == g.ballSpeed && r.ballDirection == g.ballDirection
  {
    var color := g.pool[index];
    var pool := SpliceOne(g.pool, index);
    assert g.pool == pool[..index] + [color] + pool[index..];
    var p := NewPlayer(id, name, color);
    var g1 :=
      if |g.left| > |g.right| then
        g.(pool := pool, right := g.right + [p.(position := |g.right| + 1)])
      else
        g.(pool := pool, left := g.left + [p.(position := |g.left| + 1)]);
    UnplacedAppend(g.left, p.(position := |g.left| + 1));
    UnplacedAppend(g.right, p.(position := |g.right| + 1));
    var g2 := ShiftPlayers(g1);
    if !g2.started && Seated(g2) >= 2 then Start(g2) else g2
  }

  /** Forgetting x distributes over appending one player. */
  lemma UnplacedAppend(s: seq<Player>, p: Player)
    ensures Unplaced(s + [p]) == Unplaced(s) + [p.(x := 0.0)]
  {
  }

  // ---------------------------------------------------------------------------
  // Remove

  /**
   Unseat the player with `p`'s identity, exactly as the engine does it: the
   colour `p` carries goes back to the pool; the player is looked up on the left
   and, failing that, on the right, and spliced out; a right side is renumbered
   1..N, a left side -1..-N; every paddle is placed again; the match is stopped
   when fewer than two players remain. A player seated on neither side makes the
   right-side splice start at -1, which drops the last right player.
   */
  function RemovePlayer(g: Game, p: Player): (r: Game)
    ensures |r.pool| == |g.pool| + 1 && r.pool[..|g.pool|] == g.pool && r.pool[|g.pool|] == p.color
    ensures PlacedLeft(r.left) && PlacedRight(r.right)
    ensures r.started == (g.started && Seated(r) >= 2)
    ensures g.started && !r.started ==> Parked(r)
    ensures !(g.started && !r.started) ==> r.ballX == g.ballX && r.ballY == g.ballY && r.ballSpeed == g.ballSpeed
    ensures r.leftScore == g.leftScore && r.rightScore == g.rightScore
    ensures r.ballDirection == g.ballDirection
  {
    var pool := g.pool + [p.color];
    var li := IndexOf(g.left, p.id);
    var g1 :=
      if li < 0 then
        var ri := IndexOf(g.right, p.id);
        g.(pool := pool, right := RenumberRight(SpliceOne(g.right, ri)))
      else
        g.(pool := pool, left := RenumberLeft(SpliceOne(g.left, li)));
    var g2 := ShiftPlayers(g1);
    if g2.started && Seated(g2) < 2 then Stop(g2) else g2
  }

  /** With distinct identities, the lookup finds the one index holding the identity. */
  lemma IndexOfDistinct(s: seq<Player>, i: int)
    requires DistinctIds(s) && 0 <= i < |s|
    ensures IndexOf(s, s[i].id) == i
  {
  }

  /** A missing identity is found nowhere. */
  lemma IndexOfMissing(s: seq<Player>, id: nat)
    requires id !in Ids(s)
    ensures IndexOf(s, id) == -1
  {
    forall j | 0 <= j < |s|
      ensures s[j].id != id
    {
      assert Ids(s)[j] == s[j].id;
    }
  }

  /**
   Removing a left player: it is gone, the others keep their relative order and
   everything but position and x, the left side is numbered -1..-N, and the right
   side's seating is untouched.
   */
  lemma RemoveFromLeft(g: Game, p: Player, i: nat)
    requires DistinctIds(g.left) && i < |g.left| && g.left[i].id == p.id
    ensures var r := RemovePlayer(g, p);
      var rest := g.left[..i] + g.left[i + 1..];
      && Occupants(r.left) == Occupants(rest)
      && NegSlotted(r.left)
      && p.id !in Ids(r.left)
      && Unplaced(r.right) == Unplaced(g.right)
      && Seated(r) == Seated(g) - 1
  {
    IndexOfDistinct(g.left, i);
    var r := RemovePlayer(g, p);
    var rest := g.left[..i] + g.left[i + 1..];
    assert SpliceOne(g.left, i) == rest;
    assert Occupants(r.left) == Occupants(rest);
    forall j | 0 <= j < |r.left|
      ensures r.left[j].id != p.id
    {
      if j < i {
        assert r.left[j].id == g.left[j].id;
      } else {
        assert r.left[j].id == g.left[j + 1].id;
      }
    }
  }

  /**
   Removing a right player (one absent from the left): it is gone, the others keep
   their relative order and everything but position and x, the right side is
   numbered 1..N, and the left side's seating is untouched.
   */
  lemma RemoveFromRight(g: Game, p: Player, i: nat)
    requires p.id !in Ids(g.left)
    requires DistinctIds(g.right) && i < |g.right| && g.right[i].id == p.id
    ensures var r := RemovePlayer(g, p);
      var rest := g.right[..i] + g.right[i + 1..];
      && Occupants(r.right) == Occupants(rest)
      && Slotted(r.right)
      && p.id !in Ids(r.right)
      && Unplaced(r.left) == Unplaced(g.left)
      && Seated(r) == Seated(g) - 1
  {
    IndexOfMissing(g.left, p.id);
    IndexOfDistinct(g.right, i);
    var r := RemovePlayer(g, p);
    var rest := g.right[..i] + g.right[i + 1..];
    assert SpliceOne(g.right, i) == rest;
    assert Occupants(r.right) == Occupants(rest);
    forall j | 0 <= j < |r.right|
      ensures r.right[j].id != p.id
    {
      if j < i {
        assert r.right[j].id == g.right[j].id;
      } else {
        assert r.right[j].id == g.right[j + 1].id;
      }
    }
  }

  /** A left side numbered -1..-N and placed by the formula sits in (0.25, 0.5). */
  lemma NegSlottedInward(s: seq<Player>)
    requires NegSlotted(s) && PlacedLeft(s)
    ensures forall j :: 0 <= j < |s| ==> 0.25 < s[j].x < 0.5
  {
    var n := |s|;
    forall j | 0 <= j < n
      ensures 0.25 < s[j].x < 0.5
    {
      assert s[j].x == Depth(n, -j - 1);
      QuarterToHalf(n + j + 2, n + 1);
    }
  }

  /**
   Because the left side is renumbered -1..-N, the paddles left after a left
   removal are placed in (0.25, 0.5), inward of the quarter field a join uses.
   */
  lemma LeftRemovalMovesPaddlesInward(g: Game, p: Player, i: nat)
    requires DistinctIds(g.left) && i < |g.left| && g.left[i].id == p.id
    ensures var r := RemovePlayer(g, p);
      forall j :: 0 <= j < |r.left| ==> 0.25 < r.left[j].x < 0.5
  {
    RemoveFromLeft(g, p, i);
    NegSlottedInward(RemovePlayer(g, p).left);
  }

  /**
   A player seated on neither side is not ignored: the last right player is
   dropped instead, and the unknown player's colour still enters the pool.
   */
  lemma RemoveUnknownDropsLastRight(g: Game, p: Player)
    requires p.id !in Ids(g.left) && p.id !in Ids(g.right)
    requires |g.right| > 0
    ensures var r := RemovePlayer(g, p);
      && Ids(r.right) == Ids(g.right[..|g.right| - 1])
      && Colours(r.right) == Colours(g.right[..|g.right| - 1])
      && Unplaced(r.left) == Unplaced(g.left)
      && |r.pool| == |g.pool| + 1 && p.color in r.pool
  {
    IndexOfMissing(g.left, p.id);
    IndexOfMissing(g.right, p.id);
    var r := RemovePlayer(g, p);
    assert Ids(r.right) == Ids(g.right[..|g.right| - 1]);
    assert Colours(r.right) == Colours(g.right[..|g.right| - 1]);
    assert r.pool[|g.pool|] == p.color;
  }
}

=== FILE: session.dfy ===
/**
 A match driven by a sequence of events, and the invariants every reachable
 state keeps. Here a departure or a move for an identity that is not seated, and
 a join with no colour left, are refused instead of being applied.
 */
module Session {
  import opened Config
  import opened Players
  import opened Games
  import opened Lifecycle
  import opened Roster

  datatype Option<T> = None | Some(value: T)

  /** The inputs a match reacts to, with the engine's random draws supplied by the caller. */
  datatype Event =
    | JoinEvent(id: nat, name: string, index: nat)
    | LeaveEvent(id: nat)
    | MoveEvent(id: nat, motion: int)
    | LaunchEvent(u1: real, u2: real)

  // ---------------------------------------------------------------------------
  // Invariants

  /** No identity is seated twice, on one side or across both. */
  predicate UniqueSeats(g: Game) {
    && DistinctIds(g.left)
    && DistinctIds(g.right)
    && forall i, j :: 0 <= i < |g.left| && 0 <= j < |g.right| ==> g.left[i].id != g.right[j].id
  }

  /** Every colour of the match: the pool's and the seated players'. */
  function ColourStock(g: Game): multiset<string> {
    multiset(g.pool) + multiset(Colours(g.left)) + multiset(Colours(g.right))
  }

  /** Every palette colour is either in the pool or held by a seated player, once. */
  predicate ColoursConserved(g: Game) {
    ColourStock(g) == multiset(Palette)
  }

  /** Every paddle lies wholly on the field. */
  predicate PaddlesOnField(g: Game) {
    && (forall i :: 0 <= i < |g.left| ==> OnField(g.left[i].y))
    && (forall i :: 0 <= i < |g.right| ==> OnField(g.right[i].y))
  }

  /** Who sits where: identities, colours, right-side slots, paddles and the armed flag agree. */
  predicate Seating(g: Game) {
    && UniqueSeats(g)
    && ColoursConserved(g)
    && Slotted(g.right)
    && PaddlesOnField(g)
    && g.started == (Seated(g) >= 2)
  }

  /** What every state reachable from a new match satisfies: the seating, and every paddle placed. */
  predicate Inv(g: Game) {
    Seating(g) && PlacedLeft(g.left) && PlacedRight(g.right)
  }

  /** Joins alone keep the left side equal to the right or one longer. */
  predicate Balanced(g: Game) {
    |g.right| <= |g.left| <= |g.right| + 1
  }

  // ---------------------------------------------------------------------------
  // Facts about the roster helpers
  //
  // Three projections of a roster forget different fields: `Unplaced` forgets x,
  // `Occupants` forgets slot and x, `Seats` forgets paddle y. Each operation
  // promises equality of one of them, so each has its own lemma
  // (`SameSeating`, `SameOccupants`, `ReseatY`) that turns the equality into
  // the per-player facts the invariant needs.

  /** An identity is in a roster exactly when the lookup finds it. */
  lemma IndexOfIds(s: seq<Player>, id: nat)
    ensures id in Ids(s) <==> IndexOf(s, id) >= 0
  {
    if id in Ids(s) {
      var j :| 0 <= j < |s| && Ids(s)[j] == id;
      assert s[j].id == id;
    }
    var i := IndexOf(s, id);
    if i >= 0 {
      assert Ids(s)[i] == id;
    }
  }

  /** Two rosters with the same seating have the same identities, colours, positions and paddle y. */
  lemma SameSeating(a: seq<Player>, b: seq<Player>)
    requires Unplaced(a) == Unplaced(b)
    ensures |a| == |b|
    ensures forall i :: 0 <= i < |a| ==>
      a[i].id == b[i].id && a[i].color == b[i].color && a[i].position == b[i].position && a[i].y == b[i].y
    ensures Colours(a) == Colours(b) && Ids(a) == Ids(b)
  {
    assert forall i :: 0 <= i < |a| ==> Unplaced(a)[i] == a[i].(x := 0.0);
    assert forall i :: 0 <= i < |a| ==> Unplaced(b)[i] == b[i].(x := 0.0);
  }

  /** Two rosters with the same occupants have the same identities, colours and paddle y, in order. */
  lemma SameOccupants(a: seq<Player>, b: seq<Player>)
    requires Occupants(a) == Occupants(b)
    ensures |a| == |b|
    ensures forall i :: 0 <= i < |a| ==> a[i].id == b[i].id && a[i].color == b[i].color && a[i].y == b[i].y
    ensures Colours(a) == Colours(b) && Ids(a) == Ids(b)
  {
    assert forall i :: 0 <= i < |a| ==> Occupants(a)[i] == a[i].(position := 0, x := 0.0);
    assert forall i :: 0 <= i < |a| ==> Occupants(b)[i] == b[i].(position := 0, x := 0.0);
  }

  /** Colours of a roster are the colours of its parts. */
  lemma ColoursConcat(a: seq<Player>, b: seq<Player>)
    ensures Colours(a + b) == Colours(a) + Colours(b)
  {
  }

  /** Taking one player out of a roster takes its colour out of the roster's colours. */
  lemma ColoursRemoveAt(s: seq<Player>, i: nat)
    requires i < |s|
    ensures multiset(Colours(s[..i] + s[i + 1..])) + multiset{s[i].color} == multiset(Colours(s))
  {
    assert s == s[..i] + [s[i]] + s[i + 1..];
    ColoursConcat(s[..i] + [s[i]], s[i + 1..]);
    ColoursConcat(s[..i], [s[i]]);
    ColoursConcat(s[..i], s[i + 1..]);
  }

  /** Rosters agreeing player by player on colour have the same colours. */
  lemma ColoursAgree(a: seq<Player>, b: seq<Player>)
    requires |a| == |b|
    requires forall i :: 0 <= i < |a| ==> a[i].color == b[i].color
    ensures Colours(a) == Colours(b)
  {
  }

  // ---------------------------------------------------------------------------
  // Guarded operations

  /**
   `t` is `s` without its player at index `i`: the others keep their order and
   everything but slot number and x.
   */
  predicate Remains(t: seq<Player>, s: seq<Player>, i: int) {
    && 0 <= i < |s| && |t| == |s| - 1
    && (forall k :: 0 <= k < i ==> t[k].(position := 0, x := 0.0) == s[k].(position := 0, x := 0.0))
    && (forall k :: i <= k < |t| ==> t[k].(position := 0, x := 0.0) == s[k + 1].(position := 0, x := 0.0))
  }

  /**
   `r` is `g` after the departure of the left player at index `i`: the other left
   players keep their order, the right side is untouched, and the departing
   player's colour is appended to the pool.
   */
  predicate LeftDeparture(g: Game, r: Game, i: int) {
    && 0 <= i < |g.left|
    && Remains(r.left, g.left, i)
    && Unplaced(r.right) == Unplaced(g.right)
    && r.pool == g.pool + [g.left[i].color]
  }

  /** `r` is `g` after the departure of the right player at index `i`, as for `LeftDeparture`. */
  predicate RightDeparture(g: Game, r: Game, i: int) {
    && 0 <= i < |g.right|
    && Remains(r.right, g.right, i)
    && Unplaced(r.left) == Unplaced(g.left)
    && r.pool == g.pool + [g.right[i].color]
  }

  /**
   Unseat the player with identity `id`, refusing an identity seated on neither
   side. The seated record itself is handed to the removal, so the colour that
   returns to the pool is the one the player holds.
   */
  function Leave(g: Game, id: nat): (r: Option<Game>)
    ensures r.None? <==> id !in Ids(g.left) && id !in Ids(g.right)
    ensures r.Some? ==> Seated(r.value) == Seated(g) - 1
    ensures r.Some? && id in Ids(g.left) ==> LeftDeparture(g, r.value, IndexOf(g.left, id))
    ensures r.Some? && id !in Ids(g.left) ==> RightDeparture(g, r.value, IndexOf(g.right, id))
    ensures r.Some? && UniqueSeats(g) ==> id !in Ids(r.value.left) && id !in Ids(r.value.right)
    ensures r.Some? ==> r.value.started == (g.started && Seated(r.value) >= 2)
    ensures r.Some? && g.started && !r.value.started ==> Parked(r.value)
    ensures r.Some? ==> ColourStock(r.value) == ColourStock(g)
  {
    IndexOfIds(g.left, id);
    IndexOfIds(g.right, id);
    var li := IndexOf(g.left, id);
    var ri := IndexOf(g.right, id);
    if li >= 0 then
      LeaveAt(g, true, li);
      Some(RemovePlayer(g, g.left[li]))
    else if ri >= 0 then
      LeaveAt(g, false, ri);
      Some(RemovePlayer(g, g.right[ri]))
    else
      None
  }

  /** The colour stock is unchanged when colour `c` moves from one roster back to the pool. */
  lemma StockReturns(g: Game, r: Game, c: string)
    requires r.pool == g.pool + [c]
    requires || (multiset(Colours(r.left)) + multiset{c} == multiset(Colours(g.left)) && Colours(r.right) == Colours(g.right))
             || (multiset(Colours(r.right)) + multiset{c} == multiset(Colours(g.right)) && Colours(r.left) == Colours(g.left))
    ensures ColourStock(r) == ColourStock(g)
  {
    forall x
      ensures ColourStock(r)[x] == ColourStock(g)[x]
    {
      assert multiset(r.pool)[x] == multiset(g.pool)[x] + multiset{c}[x];
      assert (multiset(Colours(r.left)) + multiset{c})[x] == multiset(Colours(r.left))[x] + multiset{c}[x];
      assert (multiset(Colours(r.right)) + multiset{c})[x] == multiset(Colours(r.right))[x] + multiset{c}[x];
    }
  }

  /** The removal of the player at the first index holding its identity, on either side. */
  lemma LeaveAt(g: Game, onLeft: bool, i: nat)
    requires onLeft ==> i < |g.left| && IndexOf(g.left, g.left[i].id) == i
    requires !onLeft ==> i < |g.right| && IndexOf(g.left, g.right[i].id) < 0 && IndexOf(g.right, g.right[i].id) == i
    ensures var p := if onLeft then g.left[i] else g.right[i];
      var r := RemovePlayer(g, p);
      && Seated(r) == Seated(g) - 1
      && (onLeft ==> LeftDeparture(g, r, i))
      && (!onLeft ==> RightDeparture(g, r, i))
      && (UniqueSeats(g) ==> p.id !in Ids(r.left) && p.id !in Ids(r.right))
      && ColourStock(r) == ColourStock(g)
  {
    if onLeft {
      LeaveAtLeft(g, i);
    } else {
      LeaveAtRight(g, i);
    }
  }

  /** The left-side case of `LeaveAt`. */
  lemma LeaveAtLeft(g: Game, i: nat)
    requires i < |g.left| && IndexOf(g.left, g.left[i].id) == i
    ensures var r := RemovePlayer(g, g.left[i]);
      && Seated(r) == Seated(g) - 1
      && LeftDeparture(g, r, i)
      && (UniqueSeats(g) ==> g.left[i].id !in Ids(r.left) && g.left[i].id !in Ids(r.right))
      && ColourStock(r) == ColourStock(g)
  {
    var r := RemovePlayer(g, g.left[i]);
    var rest := g.left[..i] + g.left[i + 1..];
    assert SpliceOne(g.left, i) == rest;
    assert Occupants(r.left) == Occupants(rest);
    OccupantsRemain(r.left, g.left, i);
    assert r.pool == g.pool + [g.left[i].color];
    if UniqueSeats(g) {
      UnseatsLeft(g, i);
    }
    ColoursAgree(r.left, rest);
    ColoursRemoveAt(g.left, i);
    SameSeating(r.right, g.right);
    StockReturns(g, r, g.left[i].color);
  }

  /** The right-side case of `LeaveAt`. */
  lemma LeaveAtRight(g: Game, i: nat)
    requires i < |g.right| && IndexOf(g.left, g.right[i].id) < 0 && IndexOf(g.right, g.right[i].id) == i
    ensures var r := RemovePlayer(g, g.right[i]);
      && Seated(r) == Seated(g) - 1
      && RightDeparture(g, r, i)
      && (UniqueSeats(g) ==> g.right[i].id !in Ids(r.left) && g.right[i].id !in Ids(r.right))
      && ColourStock(r) == ColourStock(g)
  {
    var r := RemovePlayer(g, g.right[i]);
    var rest := g.right[..i] + g.right[i + 1..];
    assert SpliceOne(g.right, i) == rest;
    assert Occupants(r.right) == Occupants(rest);
    OccupantsRemain(r.right, g.right, i);
    assert r.pool == g.pool + [g.right[i].color];
    if UniqueSeats(g) {
      UnseatsRight(g, i);
    }
    ColoursAgree(r.right, rest);
    ColoursRemoveAt(g.right, i);
    SameSeating(r.left, g.left);
    StockReturns(g, r, g.right[i].color);
  }

  /** Equal occupants with a roster less one player is `Remains`. */
  lemma OccupantsRemain(t: seq<Player>, s: seq<Player>, i: nat)
    requires i < |s| && Occupants(t) == Occupants(s[..i] + s[i + 1..])
    ensures Remains(t, s, i)
  {
    var rest := s[..i] + s[i + 1..];
    forall k | 0 <= k < |t|
      ensures t[k].(position := 0, x := 0.0) == rest[k].(position := 0, x := 0.0)
    {
      assert Occupants(t)[k] == Occupants(rest)[k];
    }
  }

  /** Unseating a left player, when identities are unique, leaves its identity on neither side. */
  lemma UnseatsLeft(g: Game, i: nat)
    requires UniqueSeats(g) && i < |g.left|
    ensures var r := RemovePlayer(g, g.left[i]);
      g.left[i].id !in Ids(r.left) && g.left[i].id !in Ids(r.right)
  {
    var r := RemovePlayer(g, g.left[i]);
    RemoveFromLeft(g, g.left[i], i);
    SameSeating(r.right, g.right);
    forall j | 0 <= j < |g.right|
      ensures Ids(g.right)[j] != g.left[i].id
    {
      assert g.left[i].id != g.right[j].id;
    }
  }

  /** Unseating a right player, when identities are unique, leaves its identity on neither side. */
  lemma UnseatsRight(g: Game, i: nat)
    requires UniqueSeats(g) && i < |g.right|
    ensures var r := RemovePlayer(g, g.right[i]);
      g.right[i].id !in Ids(r.left) && g.right[i].id !in Ids(r.right)
  {
    var r := RemovePlayer(g, g.right[i]);
    RightNotLeft(g, i);
    RemoveFromRight(g, g.right[i], i);
    SameSeating(r.left, g.left);
  }

  /** Each player's seat on a side: everything but the paddle's y. */
  function Seats(s: seq<Player>): (r: seq<Player>)
    ensures |r| == |s|
  {
    seq(|s|, i requires 0 <= i < |s| => s[i].(y := 0))
  }

  /** `t` is `s` with the player at index `i` moved by `motion` and every other player unchanged. */
  predicate MovedAt(s: seq<Player>, t: seq<Player>, i: int, motion: int) {
    && 0 <= i < |s| && |t| == |s|
    && t[i] == Move(s[i], motion)
    && forall k :: 0 <= k < |s| && k != i ==> t[k] == s[k]
  }

  /**
   Apply a move input to the paddle of the seated player with identity `id`,
   refusing an identity seated on neither side. Only that paddle's y can change.
   */
  function MoveSeated(g: Game, id: nat, motion: int): (r: Option<Game>)
    ensures r.None? <==> id !in Ids(g.left) && id !in Ids(g.right)
    ensures r.Some? ==> r.value.(left := g.left, right := g.right) == g
    ensures r.Some? ==> |r.value.left| == |g.left| && |r.value.right| == |g.right|
    ensures r.Some? ==> Seats(r.value.left) == Seats(g.left) && Seats(r.value.right) == Seats(g.right)
    ensures r.Some? && id in Ids(g.left) ==> MovedAt(g.left, r.value.left, IndexOf(g.left, id), motion) && r.value.right == g.right
    ensures r.Some? && id !in Ids(g.left) ==> MovedAt(g.right, r.value.right, IndexOf(g.right, id), motion) && r.value.left == g.left
    ensures r.Some? && PaddlesOnField(g) ==> PaddlesOnField(r.value)
  {
    IndexOfIds(g.left, id);
    IndexOfIds(g.right, id);
    var li := IndexOf(g.left, id);
    var ri := IndexOf(g.right, id);
    if li >= 0 then
      Some(g.(left := g.left[li := Move(g.left[li], motion)]))
    else if ri >= 0 then
      Some(g.(right := g.right[ri := Move(g.right[ri], motion)]))
    else
      None
  }

  /**
   React to one event. `pi` is the value of pi the launch angle is drawn with.
   A join with no colour to draw from or with an identity already seated, a
   departure or move of an identity not seated, and random draws outside [0, 1)
   are refused.
   */
  function Step(pi: real, g: Game, e: Event): (r: Option<Game>)
    requires pi > 0.0
    ensures e.JoinEvent? ==> (r.None? <==> e.index >= |g.pool| || e.id in Ids(g.left) || e.id in Ids(g.right))
    ensures e.JoinEvent? && r.Some? ==> Seated(r.value) == Seated(g) + 1
    ensures e.LeaveEvent? && r.Some? ==> Seated(r.value) == Seated(g) - 1
    ensures (e.MoveEvent? || e.LaunchEvent?) && r.Some? ==> Seated(r.value) == Seated(g)
    ensures e.LeaveEvent? ==> (r.None? <==> e.id !in Ids(g.left) && e.id !in Ids(g.right))
    ensures e.LeaveEvent? && r.Some? ==>
      && ColourStock(r.value) == ColourStock(g)
      && r.value.started == (g.started && Seated(r.value) >= 2)
    ensures e.MoveEvent? ==> (r.None? <==> e.id !in Ids(g.left) && e.id !in Ids(g.right))
    ensures e.MoveEvent? && r.Some? ==>
      && r.value.pool == g.pool && r.value.started == g.started
      && Seats(r.value.left) == Seats(g.left) && Seats(r.value.right) == Seats(g.right)
    ensures e.LaunchEvent? ==> (r.None? <==> !(0.0 <= e.u1 < 1.0 && 0.0 <= e.u2 < 1.0))
    ensures e.LaunchEvent? && r.Some? ==> SameTable(r.value, g) && r.value.started == g.started
    ensures r.Some? ==> r.value.leftScore == g.leftScore && r.value.rightScore == g.rightScore
  {
    match e
    case JoinEvent(id, name, index) =>
      if index < |g.pool| && id !in Ids(g.left) && id !in Ids(g.right) then Some(Join(g, id, name, index)) else None
    case LeaveEvent(id) =>
      Leave(g, id)
    case MoveEvent(id, motion) =>
      MoveSeated(g, id, motion)
    case LaunchEvent(u1, u2) =>
      if 0.0 <= u1 < 1.0 && 0.0 <= u2 < 1.0 then Some(Launch(g, pi, u1, u2)) else None
  }

  /** React to events in order, stopping at the first refused one. */
  function Run(pi: real, g: Game, es: seq<Event>): (r: Option<Game>)
    requires pi > 0.0
    ensures |es| == 0 ==> r == Some(g)
    ensures r.Some? ==> r.value.leftScore == g.leftScore && r.value.rightScore == g.rightScore
    decreases |es|
  {
    if |es| == 0 then Some(g)
    else
      match Step(pi, g, es[0])
      case None => None
      case Some(g') => Run(pi, g', es[1..])
  }

  // ---------------------------------------------------------------------------
  // The invariants are kept

  /** A new match satisfies the invariant and is balanced. */
  lemma InitialInv()
    ensures Inv(Initial()) && Balanced(Initial())
  {
    var g := Initial();
    assert Colours(g.left) == [] && Colours(g.right) == [];
    assert ColourStock(g) == multiset(Palette);
  }

  /** Identities stay distinct when one player is taken out. */
  lemma RestDistinct(s: seq<Player>, i: nat)
    requires DistinctIds(s) && i < |s|
    ensures DistinctIds(s[..i] + s[i + 1..])
  {
    var rest := s[..i] + s[i + 1..];
    forall a, b | 0 <= a < b < |rest|
      ensures rest[a].id != rest[b].id
    {
      var a' := if a < i then a else a + 1;
      var b' := if b < i then b else b + 1;
      assert rest[a] == s[a'] && rest[b] == s[b'];
    }
  }

  /** A roster lacks every identity its identity list lacks. */
  lemma NotInIds(s: seq<Player>, id: nat)
    requires id !in Ids(s)
    ensures forall i :: 0 <= i < |s| ==> s[i].id != id
  {
    forall i | 0 <= i < |s|
      ensures s[i].id != id
    {
      assert Ids(s)[i] == s[i].id;
    }
  }

  /**
   The invariant survives a change of seating that appends one fresh player to
   one side (`grown`, built from `base`) and keeps the other side (`kept`).
   */
  lemma AppendKeepsSeats(base: seq<Player>, grown: seq<Player>, q: Player, other: seq<Player>, kept: seq<Player>)
    requires DistinctIds(base) && DistinctIds(other)
    requires forall i, j :: 0 <= i < |base| && 0 <= j < |other| ==> base[i].id != other[j].id
    requires forall i :: 0 <= i < |base| ==> base[i].id != q.id
    requires forall j :: 0 <= j < |other| ==> other[j].id != q.id
    requires Unplaced(grown) == Unplaced(base + [q])
    requires Unplaced(kept) == Unplaced(other)
    requires OnField(q.y)
    requires forall i :: 0 <= i < |base| ==> OnField(base[i].y)
    requires forall j :: 0 <= j < |other| ==> OnField(other[j].y)
    ensures DistinctIds(grown) && DistinctIds(kept)
    ensures forall i :: 0 <= i < |grown| ==> OnField(grown[i].y)
    ensures forall j :: 0 <= j < |kept| ==> OnField(kept[j].y)
    ensures forall i, j :: 0 <= i < |grown| && 0 <= j < |kept| ==> grown[i].id != kept[j].id
    ensures Colours(grown) == Colours(base) + [q.color] && Colours(kept) == Colours(other)
    ensures Slotted(other) ==> Slotted(kept)
    ensures Slotted(base) && q.position == |base| + 1 ==> Slotted(grown)
  {
    SameSeating(grown, base + [q]);
    SameSeating(kept, other);
    ColoursConcat(base, [q]);
    forall i | 0 <= i < |grown|
      ensures grown[i].y == (if i < |base| then base[i].y else q.y)
      ensures grown[i].position == (if i < |base| then base[i].position else q.position)
    {
      if i < |base| {
        assert (base + [q])[i] == base[i];
      } else {
        assert (base + [q])[i] == q;
      }
    }
  }

  /** The colour stock is unchanged when colour `c` moves from the pool to the end of one roster. */
  lemma StockMoves(g: Game, r: Game, c: string)
    requires multiset(r.pool) + multiset{c} == multiset(g.pool)
    requires || (Colours(r.left) == Colours(g.left) + [c] && Colours(r.right) == Colours(g.right))
             || (Colours(r.right) == Colours(g.right) + [c] && Colours(r.left) == Colours(g.left))
    ensures ColourStock(r) == ColourStock(g)
  {
    forall x
      ensures ColourStock(r)[x] == ColourStock(g)[x]
    {
      assert (multiset(r.pool) + multiset{c})[x] == multiset(g.pool)[x];
      assert multiset(Colours(g.left) + [c])[x] == multiset(Colours(g.left))[x] + multiset{c}[x];
      assert multiset(Colours(g.right) + [c])[x] == multiset(Colours(g.right))[x] + multiset{c}[x];
    }
  }

  /** Seating a fresh player `q` at the end of the left side keeps identities unique and paddles on the field. */
  lemma GrowLeftSeats(g: Game, r: Game, q: Player)
    requires UniqueSeats(g) && PaddlesOnField(g)
    requires q.id !in Ids(g.left) && q.id !in Ids(g.right) && q.y == 0
    requires Unplaced(r.left) == Unplaced(g.left + [q]) && Unplaced(r.right) == Unplaced(g.right)
    ensures UniqueSeats(r) && PaddlesOnField(r)
    ensures Colours(r.left) == Colours(g.left) + [q.color] && Colours(r.right) == Colours(g.right)
    ensures Slotted(g.right) ==> Slotted(r.right)
    ensures Seated(r) == Seated(g) + 1
  {
    NotInIds(g.left, q.id);
    NotInIds(g.right, q.id);
    AppendKeepsSeats(g.left, r.left, q, g.right, r.right);
  }

  /** Seating a fresh player `q` in slot N + 1 at the end of the right side keeps identities unique and paddles on the field. */
  lemma GrowRightSeats(g: Game, r: Game, q: Player)
    requires UniqueSeats(g) && PaddlesOnField(g) && Slotted(g.right)
    requires q.id !in Ids(g.left) && q.id !in Ids(g.right) && q.y == 0 && q.position == |g.right| + 1
    requires Unplaced(r.right) == Unplaced(g.right + [q]) && Unplaced(r.left) == Unplaced(g.left)
    ensures UniqueSeats(r) && PaddlesOnField(r) && Slotted(r.right)
    ensures Colours(r.right) == Colours(g.right) + [q.color] && Colours(r.left) == Colours(g.left)
    ensures Seated(r) == Seated(g) + 1
  {
    NotInIds(g.left, q.id);
    NotInIds(g.right, q.id);
    AppendKeepsSeats(g.right, r.right, q, g.left, r.left);
    assert forall i, j :: 0 <= i < |r.left| && 0 <= j < |r.right| ==> r.right[j].id != r.left[i].id;
  }

  /** The seating survives seating a fresh player `q` at the end of the left side. */
  lemma GrowLeftKeepsSeating(g: Game, r: Game, q: Player)
    requires Seating(g)
    requires q.id !in Ids(g.left) && q.id !in Ids(g.right) && q.y == 0
    requires Unplaced(r.left) == Unplaced(g.left + [q]) && Unplaced(r.right) == Unplaced(g.right)
    requires multiset(r.pool) + multiset{q.color} == multiset(g.pool)
    requires r.started == (g.started || Seated(r) >= 2)
    ensures Seating(r)
  {
    GrowLeftSeats(g, r, q);
    StockMoves(g, r, q.color);
  }

  /** The seating survives seating a fresh player `q` at the end of the right side in slot N + 1. */
  lemma GrowRightKeepsSeating(g: Game, r: Game, q: Player)
    requires Seating(g)
    requires q.id !in Ids(g.left) && q.id !in Ids(g.right) && q.y == 0 && q.position == |g.right| + 1
    requires Unplaced(r.right) == Unplaced(g.right + [q]) && Unplaced(r.left) == Unplaced(g.left)
    requires multiset(r.pool) + multiset{q.color} == multiset(g.pool)
    requires r.started == (g.started || Seated(r) >= 2)
    ensures Seating(r)
  {
    GrowRightSeats(g, r, q);
    StockMoves(g, r, q.color);
  }

  /** Seating a fresh identity keeps the invariant. */
  lemma JoinPreservesInv(g: Game, id: nat, name: string, index: nat)
    requires Inv(g)
    requires index < |g.pool| && id !in Ids(g.left) && id !in Ids(g.right)
    ensures Inv(Join(g, id, name, index))
  {
    var q := Player(id, name, g.pool[index], 0, 0.0, 0);
    if |g.left| <= |g.right| {
      JoinLeftInv(g, q, index);
    } else {
      JoinRightInv(g, q, index);
    }
  }

  /** The left-side case of `JoinPreservesInv`. */
  lemma JoinLeftInv(g: Game, q: Player, index: nat)
    requires Inv(g) && |g.left| <= |g.right|
    requires index < |g.pool| && q.color == g.pool[index] && q.x == 0.0 && q.y == 0
    requires q.id !in Ids(g.left) && q.id !in Ids(g.right)
    ensures Inv(Join(g, q.id, q.name, index))
  {
    var r := Join(g, q.id, q.name, index);
    var q' := q.(position := |g.left| + 1);
    UnplacedAppend(g.left, q');
    GrowLeftKeepsSeating(g, r, q');
  }

  /** The right-side case of `JoinPreservesInv`. */
  lemma JoinRightInv(g: Game, q: Player, index: nat)
    requires Inv(g) && |g.left| > |g.right|
    requires index < |g.pool| && q.color == g.pool[index] && q.x == 0.0 && q.y == 0
    requires q.id !in Ids(g.left) && q.id !in Ids(g.right)
    ensures Inv(Join(g, q.id, q.name, index))
  {
    var r := Join(g, q.id, q.name, index);
    var q' := q.(position := |g.right| + 1);
    UnplacedAppend(g.right, q');
    GrowRightKeepsSeating(g, r, q');
  }

  /**
   Seating facts survive taking the player at index `i` out of `base` (giving
   `shrunk`, whose players keep their order and all but position and x) while
   the other side `other` becomes `kept` with the same seating.
   */
  lemma ShrinkKeepsSeats(base: seq<Player>, shrunk: seq<Player>, i: nat, other: seq<Player>, kept: seq<Player>)
    requires DistinctIds(base) && DistinctIds(other) && i < |base|
    requires forall a, b :: 0 <= a < |base| && 0 <= b < |other| ==> base[a].id != other[b].id
    requires forall a :: 0 <= a < |base| ==> OnField(base[a].y)
    requires forall b :: 0 <= b < |other| ==> OnField(other[b].y)
    requires Occupants(shrunk) == Occupants(base[..i] + base[i + 1..])
    requires Unplaced(kept) == Unplaced(other)
    ensures DistinctIds(shrunk) && DistinctIds(kept)
    ensures forall a, b :: 0 <= a < |shrunk| && 0 <= b < |kept| ==> shrunk[a].id != kept[b].id
    ensures forall a :: 0 <= a < |shrunk| ==> OnField(shrunk[a].y)
    ensures forall b :: 0 <= b < |kept| ==> OnField(kept[b].y)
    ensures Slotted(other) ==> Slotted(kept)
  {
    var rest := base[..i] + base[i + 1..];
    RestDistinct(base, i);
    SameOccupants(shrunk, rest);
    SameSeating(kept, other);
    forall j | 0 <= j < |rest|
      ensures rest[j] == base[if j < i then j else j + 1]
    {
    }
  }

  /** Taking the player at index `i` off the left side keeps identities unique and paddles on the field. */
  lemma ShrinkLeftSeats(g: Game, r: Game, i: nat)
    requires UniqueSeats(g) && PaddlesOnField(g) && i < |g.left|
    requires Occupants(r.left) == Occupants(g.left[..i] + g.left[i + 1..])
    requires Unplaced(r.right) == Unplaced(g.right)
    ensures UniqueSeats(r) && PaddlesOnField(r)
    ensures Slotted(g.right) ==> Slotted(r.right)
    ensures Seated(r) == Seated(g) - 1
  {
    assert |r.left| == |g.left| - 1 by {
      assert |Occupants(r.left)| == |r.left|;
    }
    ShrinkKeepsSeats(g.left, r.left, i, g.right, r.right);
  }

  /** Taking the player at index `i` off the right side keeps identities unique and paddles on the field. */
  lemma ShrinkRightSeats(g: Game, r: Game, i: nat)
    requires UniqueSeats(g) && PaddlesOnField(g) && i < |g.right|
    requires Occupants(r.right) == Occupants(g.right[..i] + g.right[i + 1..])
    requires Unplaced(r.left) == Unplaced(g.left)
    ensures UniqueSeats(r) && PaddlesOnField(r)
    ensures Seated(r) == Seated(g) - 1
  {
    assert |r.right| == |g.right| - 1 by {
      assert |Occupants(r.right)| == |r.right|;
    }
    ShrinkKeepsSeats(g.right, r.right, i, g.left, r.left);
    assert forall a, b :: 0 <= a < |r.left| && 0 <= b < |r.right| ==> r.right[b].id != r.left[a].id;
  }

  /**
   The seating survives taking the player at index `i` off the left side, when
   the others keep their order and seating and the colour stock is unchanged.
   */
  lemma ShrinkLeftKeepsSeating(g: Game, r: Game, i: nat)
    requires Seating(g) && i < |g.left|
    requires Occupants(r.left) == Occupants(g.left[..i] + g.left[i + 1..])
    requires Unplaced(r.right) == Unplaced(g.right)
    requires ColourStock(r) == ColourStock(g)
    requires r.started == (g.started && Seated(r) >= 2)
    ensures Seating(r)
  {
    ShrinkLeftSeats(g, r, i);
  }

  /**
   The seating survives taking the player at index `i` off the right side, when
   the others keep their order and seating, are numbered 1..N, and the colour
   stock is unchanged.
   */
  lemma ShrinkRightKeepsSeating(g: Game, r: Game, i: nat)
    requires Seating(g) && i < |g.right|
    requires Occupants(r.right) == Occupants(g.right[..i] + g.right[i + 1..])
    requires Slotted(r.right)
    requires Unplaced(r.left) == Unplaced(g.left)
    requires ColourStock(r) == ColourStock(g)
    requires r.started == (g.started && Seated(r) >= 2)
    ensures Seating(r)
  {
    ShrinkRightSeats(g, r, i);
  }

  /** Unseating a left player keeps the invariant. */
  lemma LeaveLeftInv(g: Game, i: nat)
    requires Inv(g) && i < |g.left|
    ensures Inv(RemovePlayer(g, g.left[i]))
  {
    var r := RemovePlayer(g, g.left[i]);
    IndexOfDistinct(g.left, i);
    RemoveFromLeft(g, g.left[i], i);
    LeaveAt(g, true, i);
    ShrinkLeftKeepsSeating(g, r, i);
  }

  /** A right player's identity is not on the left. */
  lemma RightNotLeft(g: Game, i: nat)
    requires UniqueSeats(g) && i < |g.right|
    ensures g.right[i].id !in Ids(g.left) && IndexOf(g.left, g.right[i].id) < 0
  {
    var id := g.right[i].id;
    forall j | 0 <= j < |g.left|
      ensures Ids(g.left)[j] != id
    {
      assert g.left[j].id != g.right[i].id;
    }
  }

  /** Unseating a right player keeps the invariant. */
  lemma LeaveRightInv(g: Game, i: nat)
    requires Inv(g) && i < |g.right|
    ensures Inv(RemovePlayer(g, g.right[i]))
  {
    var r := RemovePlayer(g, g.right[i]);
    var id := g.right[i].id;
    RightNotLeft(g, i);
    IndexOfDistinct(g.right, i);
    RemoveFromRight(g, g.right[i], i);
    LeaveAt(g, false, i);
    ShrinkRightKeepsSeating(g, r, i);
  }

  /** A granted departure keeps the invariant. */
  lemma LeavePreservesInv(g: Game, id: nat)
    requires Inv(g) && Leave(g, id).Some?
    ensures Inv(Leave(g, id).value)
  {
    IndexOfIds(g.left, id);
    IndexOfIds(g.right, id);
    var li := IndexOf(g.left, id);
    var ri := IndexOf(g.right, id);
    if li >= 0 {
      assert Leave(g, id) == Some(RemovePlayer(g, g.left[li]));
      LeaveLeftInv(g, li);
    } else {
      assert Leave(g, id) == Some(RemovePlayer(g, g.right[ri]));
      LeaveRightInv(g, ri);
    }
  }

  // ---------------------------------------------------------------------------
  // A join undone by the matching departure

  /**
   Two matches seat the same players on each side, in the same order and with
   the same colours, have the same pool up to order, and agree on the armed flag.
   */
  predicate SameRoster(a: Game, b: Game) {
    && Ids(a.left) == Ids(b.left) && Ids(a.right) == Ids(b.right)
    && Colours(a.left) == Colours(b.left) && Colours(a.right) == Colours(b.right)
    && multiset(a.pool) == multiset(b.pool)
    && a.started == b.started
  }

  /** A roster that is `base` with `q` appended, up to x: its prefix is `base`'s seating, its last seat is `q`'s. */
  lemma DropAppended(s: seq<Player>, base: seq<Player>, q: Player)
    requires Unplaced(s) == Unplaced(base + [q])
    ensures |s| == |base| + 1
    ensures s[|base|].id == q.id && s[|base|].color == q.color
    ensures Ids(s[..|base|]) == Ids(base) && Colours(s[..|base|]) == Colours(base)
  {
    SameSeating(s, base + [q]);
    assert (base + [q])[|base|] == q;
    forall k | 0 <= k < |base|
      ensures s[k].id == base[k].id && s[k].color == base[k].color
    {
      assert (base + [q])[k] == base[k];
    }
    assert Ids(s[..|base|]) == Ids(base);
    assert Colours(s[..|base|]) == Colours(base);
  }

  /** The departure of the last left player leaves the rest of the left side, in order. */
  lemma LeaveLastLeft(j: Game, id: nat)
    requires DistinctIds(j.left) && |j.left| > 0 && j.left[|j.left| - 1].id == id
    ensures Leave(j, id).Some?
    ensures var r := Leave(j, id).value;
      var n := |j.left| - 1;
      && Ids(r.left) == Ids(j.left[..n]) && Colours(r.left) == Colours(j.left[..n])
      && Unplaced(r.right) == Unplaced(j.right)
      && r.pool == j.pool + [j.left[n].color]
      && r.started == (j.started && Seated(r) >= 2)
  {
    var n := |j.left| - 1;
    IndexOfDistinct(j.left, n);
    RemoveFromLeft(j, j.left[n], n);
    var r := RemovePlayer(j, j.left[n]);
    assert Leave(j, id) == Some(r);
    assert j.left[..n] + j.left[n + 1..] == j.left[..n];
    SameOccupants(r.left, j.left[..n]);
  }

  /** The departure of the last right player leaves the rest of the right side, in order. */
  lemma LeaveLastRight(j: Game, id: nat)
    requires DistinctIds(j.right) && |j.right| > 0 && j.right[|j.right| - 1].id == id
    requires id !in Ids(j.left)
    ensures Leave(j, id).Some?
    ensures var r := Leave(j, id).value;
      var n := |j.right| - 1;
      && Ids(r.right) == Ids(j.right[..n]) && Colours(r.right) == Colours(j.right[..n])
      && Unplaced(r.left) == Unplaced(j.left)
      && r.pool == j.pool + [j.right[n].color]
      && r.started == (j.started && Seated(r) >= 2)
  {
    var n := |j.right| - 1;
    IndexOfIds(j.left, id);
    IndexOfDistinct(j.right, n);
    RemoveFromRight(j, j.right[n], n);
    var r := RemovePlayer(j, j.right[n]);
    assert Leave(j, id) == Some(r);
    assert j.right[..n] + j.right[n + 1..] == j.right[..n];
    SameOccupants(r.right, j.right[..n]);
  }

  /**
   A join followed by the same identity's departure gives back the same players
   on each side, in order and with their colours, the same pool up to order, and
   the same armed flag.
   */
  lemma JoinThenLeave(g: Game, id: nat, name: string, index: nat)
    requires Seating(g) && index < |g.pool| && id !in Ids(g.left) && id !in Ids(g.right)
    ensures var r := Leave(Join(g, id, name, index), id); r.Some? && SameRoster(r.value, g)
  {
    if |g.left| <= |g.right| {
      JoinThenLeaveLeft(g, id, name, index);
    } else {
      JoinThenLeaveRight(g, id, name, index);
    }
  }

  /** `JoinThenLeave` when the join seats the player on the left. */
  lemma JoinThenLeaveLeft(g: Game, id: nat, name: string, index: nat)
    requires Seating(g) && index < |g.pool| && id !in Ids(g.left) && id !in Ids(g.right)
    requires |g.left| <= |g.right|
    ensures var r := Leave(Join(g, id, name, index), id); r.Some? && SameRoster(r.value, g)
  {
    JoinFacts(g, id, name, index);
    JoinLeaveLeft(g, Join(g, id, name, index), Player(id, name, g.pool[index], |g.left| + 1, 0.0, 0), id);
  }

  /** `JoinThenLeave` when the join seats the player on the right. */
  lemma JoinThenLeaveRight(g: Game, id: nat, name: string, index: nat)
    requires Seating(g) && index < |g.pool| && id !in Ids(g.left) && id !in Ids(g.right)
    requires |g.left| > |g.right|
    ensures var r := Leave(Join(g, id, name, index), id); r.Some? && SameRoster(r.value, g)
  {
    JoinFacts(g, id, name, index);
    JoinLeaveRight(g, Join(g, id, name, index), Player(id, name, g.pool[index], |g.right| + 1, 0.0, 0), id);
  }

  /**
   What `Join` promises, restated. The postcondition of a function call is
   reached through a quantified axiom, which the solver searches unreliably next
   to the invariant's quantifiers; a lemma call states the same facts directly.
   */
  lemma JoinFacts(g: Game, id: nat, name: string, index: nat)
    requires index < |g.pool|
    ensures var j := Join(g, id, name, index);
      && (|g.left| <= |g.right| ==>
        && Unplaced(j.left) == Unplaced(g.left) + [Player(id, name, g.pool[index], |g.left| + 1, 0.0, 0)]
        && Unplaced(j.right) == Unplaced(g.right))
      && (|g.left| > |g.right| ==>
        && Unplaced(j.right) == Unplaced(g.right) + [Player(id, name, g.pool[index], |g.right| + 1, 0.0, 0)]
        && Unplaced(j.left) == Unplaced(g.left))
      && multiset(j.pool) + multiset{g.pool[index]} == multiset(g.pool)
      && j.started == (g.started || Seated(j) >= 2)
  {
  }

  /** The left-side case of `JoinThenLeave`: `j` is `g` with the fresh `q` seated last on the left. */
  lemma JoinLeaveLeft(g: Game, j: Game, q: Player, id: nat)
    requires Seating(g) && q.id == id
    requires q.id !in Ids(g.left) && q.id !in Ids(g.right) && q.x == 0.0 && q.y == 0
    requires Unplaced(j.left) == Unplaced(g.left) + [q] && Unplaced(j.right) == Unplaced(g.right)
    requires multiset(j.pool) + multiset{q.color} == multiset(g.pool)
    requires j.started == (g.started || Seated(j) >= 2)
    ensures Leave(j, id).Some?
    ensures SameRoster(Leave(j, id).value, g)
  {
    UnplacedAppend(g.left, q);
    GrowLeftSeats(g, j, q);
    DropAppended(j.left, g.left, q);
    LeaveLastLeft(j, id);
    var r := Leave(j, id).value;
    SameSeating(r.right, j.right);
    SameSeating(j.right, g.right);
    JoinThenLeaveTail(g, j, r, q.color);
  }

  /** The right-side case of `JoinThenLeave`: `j` is `g` with the fresh `q` seated last on the right. */
  lemma JoinLeaveRight(g: Game, j: Game, q: Player, id: nat)
    requires Seating(g) && q.id == id
    requires q.id !in Ids(g.left) && q.id !in Ids(g.right) && q.x == 0.0 && q.y == 0
    requires q.position == |g.right| + 1
    requires Unplaced(j.right) == Unplaced(g.right) + [q] && Unplaced(j.left) == Unplaced(g.left)
    requires multiset(j.pool) + multiset{q.color} == multiset(g.pool)
    requires j.started == (g.started || Seated(j) >= 2)
    ensures Leave(j, id).Some?
    ensures SameRoster(Leave(j, id).value, g)
  {
    UnplacedAppend(g.right, q);
    GrowRightSeats(g, j, q);
    DropAppended(j.right, g.right, q);
    SameSeating(j.left, g.left);
    LeaveLastRight(j, id);
    var r := Leave(j, id).value;
    SameSeating(r.left, j.left);
    JoinThenLeaveTail(g, j, r, q.color);
  }

  /** The pool and the armed flag after a join of colour `c` and the matching departure. */
  lemma JoinThenLeaveTail(g: Game, j: Game, r: Game, c: string)
    requires g.started == (Seated(g) >= 2)
    requires multiset(j.pool) + multiset{c} == multiset(g.pool) && r.pool == j.pool + [c]
    requires j.started == (g.started || Seated(j) >= 2) && r.started == (j.started && Seated(r) >= 2)
    requires Seated(r) == Seated(g)
    ensures multiset(r.pool) == multiset(g.pool) && r.started == g.started
  {
  }

  /** Seating facts survive a change of paddle y alone. */
  lemma ReseatY(a: seq<Player>, b: seq<Player>)
    requires Seats(a) == Seats(b)
    ensures Colours(b) == Colours(a)
    ensures forall i :: 0 <= i < |a| ==> b[i].id == a[i].id
    ensures DistinctIds(a) ==> DistinctIds(b)
    ensures Slotted(a) ==> Slotted(b)
    ensures PlacedLeft(a) ==> PlacedLeft(b)
    ensures PlacedRight(a) ==> PlacedRight(b)
  {
    assert |a| == |b|;
    assert forall i :: 0 <= i < |a| ==> Seats(a)[i] == a[i].(y := 0) && Seats(b)[i] == b[i].(y := 0);
  }

  /** The invariant survives any change of paddle y that keeps every paddle on the field. */
  lemma ReseatInv(g: Game, r: Game)
    requires Inv(g) && PaddlesOnField(r)
    requires Seats(r.left) == Seats(g.left) && Seats(r.right) == Seats(g.right)
    requires r.pool == g.pool && r.started == g.started
    ensures Inv(r)
  {
    ReseatY(g.left, r.left);
    ReseatY(g.right, r.right);
    assert UniqueSeats(r);
    assert ColoursConserved(r);
  }

  /** A granted move keeps the invariant. */
  lemma MovePreservesInv(g: Game, id: nat, motion: int)
    requires Inv(g) && MoveSeated(g, id, motion).Some?
    ensures Inv(MoveSeated(g, id, motion).value)
  {
    var r := MoveSeated(g, id, motion).value;
    assert r.pool == g.pool && r.started == g.started;
    ReseatInv(g, r);
  }

  /** Every granted event keeps the invariant. */
  lemma StepPreservesInv(pi: real, g: Game, e: Event)
    requires pi > 0.0 && Inv(g) && Step(pi, g, e).Some?
    ensures Inv(Step(pi, g, e).value)
  {
    match e
    case JoinEvent(id, name, index) =>
      JoinPreservesInv(g, id, name, index);
    case LeaveEvent(id) =>
      LeavePreservesInv(g, id);
    case MoveEvent(id, motion) =>
      MovePreservesInv(g, id, motion);
    case LaunchEvent(u1, u2) =>
      TableInv(g, Launch(g, pi, u1, u2));
  }

  // `TableInv` says that the invariant reads only the rosters, the pool and the
  // armed flag. It is split into two parts, one per group of conjuncts, because
  // one proof of the whole conjunction is costly for the solver.

  /** The invariant depends only on the rosters, the pool and the armed flag. */
  lemma TableInv(g: Game, r: Game)
    requires Inv(g)
    requires r.left == g.left && r.right == g.right && r.pool == g.pool && r.started == g.started
    ensures Inv(r)
  {
    TableSeating(g, r);
  }

  /** The seating depends only on the rosters, the pool and the armed flag. */
  lemma TableSeating(g: Game, r: Game)
    requires Seating(g)
    requires r.left == g.left && r.right == g.right && r.pool == g.pool && r.started == g.started
    ensures Seating(r)
  {
    TableSeats(g, r);
    TableStock(g, r);
  }

  /** Unique identities and on-field paddles depend only on the rosters. */
  lemma TableSeats(g: Game, r: Game)
    requires UniqueSeats(g) && PaddlesOnField(g)
    requires r.left == g.left && r.right == g.right
    ensures UniqueSeats(r) && PaddlesOnField(r)
  {
  }

  /** Colours, right slots and the armed flag depend only on the rosters, the pool and the flag. */
  lemma TableStock(g: Game, r: Game)
    requires ColoursConserved(g) && Slotted(g.right) && g.started == (Seated(g) >= 2)
    requires r.left == g.left && r.right == g.right && r.pool == g.pool && r.started == g.started
    ensures ColoursConserved(r) && Slotted(r.right) && r.started == (Seated(r) >= 2)
  {
  }

  /** Every state a run reaches keeps the invariant. */
  lemma {:induction false} RunPreservesInv(pi: real, g: Game, es: seq<Event>)
    requires pi > 0.0 && Inv(g)
    ensures Run(pi, g, es).Some? ==> Inv(Run(pi, g, es).value)
    decreases |es|
  {
    if |es| > 0 {
      var s := Step(pi, g, es[0]);
      if s.Some? {
        assert Run(pi, g, es) == Run(pi, s.value, es[1..]);
        StepPreservesInv(pi, g, es[0]);
        RunPreservesInv(pi, s.value, es[1..]);
      }
    }
  }

  /** Every state reachable from a new match satisfies the invariant. */
  lemma ReachableInv(pi: real, es: seq<Event>)
    requires pi > 0.0
    ensures Run(pi, Initial(), es).Some? ==> Inv(Run(pi, Initial(), es).value)
  {
    InitialInv();
    RunPreservesInv(pi, Initial(), es);
  }

  /** A join keeps the sides balanced. */
  lemma JoinKeepsBalance(g: Game, id: nat, name: string, index: nat)
    requires Balanced(g) && index < |g.pool|
    ensures Balanced(Join(g, id, name, index))
  {
    var r := Join(g, id, name, index);
    assert |Unplaced(r.left)| == |r.left| && |Unplaced(r.right)| == |r.right|;
  }

  /** Joins alone, from balanced sides, keep them balanced. */
  lemma {:induction false} JoinsKeepBalance(pi: real, g: Game, es: seq<Event>)
    requires pi > 0.0 && Balanced(g)
    requires forall k :: 0 <= k < |es| ==> es[k].JoinEvent?
    ensures Run(pi, g, es).Some? ==> Balanced(Run(pi, g, es).value)
    decreases |es|
  {
    if |es| > 0 {
      var s := Step(pi, g, es[0]);
      if s.Some? {
        assert Run(pi, g, es) == Run(pi, s.value, es[1..]);
        JoinKeepsBalance(g, es[0].id, es[0].name, es[0].index);
        JoinsKeepBalance(pi, s.value, es[1..]);
      }
    }
  }

  // ---------------------------------------------------------------------------
  // Colours

  /** A sequence without repeats holds each value at most once. */
  lemma {:induction false} NoRepeatsCount(s: seq<string>, c: string)
    requires forall i, j :: 0 <= i < j < |s| ==> s[i] != s[j]
    ensures multiset(s)[c] <= 1
  {
    if |s| > 0 {
      var t := s[1..];
      assert s == [s[0]] + t;
      NoRepeatsCount(t, c);
      if c == s[0] {
        assert c !in t;
      }
    }
  }

  /** Every palette colour occurs once in the palette. */
  lemma PaletteCount(c: string)
    ensures multiset(Palette)[c] <= 1
  {
    NoRepeatsCount(Palette, c);
  }

  /** The colour stock holds colour `c` at most once. */
  lemma StockCount(g: Game, c: string)
    requires ColoursConserved(g)
    ensures multiset(g.pool)[c] + multiset(Colours(g.left))[c] + multiset(Colours(g.right))[c] <= 1
  {
    PaletteCount(c);
  }

  /** With the invariant, the pool and the seated players' colours never share a colour, and no colour is held twice. */
  lemma PoolDisjoint(g: Game)
    requires ColoursConserved(g)
    ensures forall c :: c in g.pool ==> c !in Colours(g.left) && c !in Colours(g.right)
    ensures forall c :: c in Colours(g.left) ==> c !in Colours(g.right)
    ensures forall c :: multiset(Colours(g.left))[c] <= 1 && multiset(Colours(g.right))[c] <= 1
  {
    forall c
      ensures c in g.pool ==> c !in Colours(g.left) && c !in Colours(g.right)
      ensures c in Colours(g.left) ==> c !in Colours(g.right)
      ensures multiset(Colours(g.left))[c] <= 1 && multiset(Colours(g.right))[c] <= 1
    {
      StockCount(g, c);
    }
  }

  /**
   Removing an unknown player breaks colour conservation whenever its colour
   differs from the last right player's: that colour leaves the stock and the
   unknown player's colour enters it.
   */
  lemma RemoveUnknownBreaksColours(g: Game, p: Player)
    requires ColoursConserved(g)
    requires p.id !in Ids(g.left) && p.id !in Ids(g.right)
    requires |g.right| > 0 && p.color != g.right[|g.right| - 1].color
    ensures !ColoursConserved(RemovePlayer(g, p))
  {
    var r := RemovePlayer(g, p);
    var n := |g.right|;
    var d := g.right[n - 1].color;
    RemoveUnknownDropsLastRight(g, p);
    SameSeating(r.left, g.left);
    StockTrade(g, r, d, p.color);
  }

  /** The stock arithmetic of an unknown removal: `d` leaves the right roster, `c` joins the pool. */
  lemma StockTrade(g: Game, r: Game, d: string, c: string)
    requires |g.right| > 0 && d == g.right[|g.right| - 1].color && c != d
    requires r.pool == g.pool + [c]
    requires Colours(r.left) == Colours(g.left)
    requires Colours(r.right) == Colours(g.right[..|g.right| - 1])
    requires ColoursConserved(g)
    ensures !ColoursConserved(r)
  {
    ColoursDropLast(g.right);
    assert ColourStock(r) == multiset(g.pool + [c]) + multiset(Colours(g.left)) + multiset(Colours(r.right));
    assert ColourStock(g) == multiset(g.pool) + multiset(Colours(g.left)) + multiset(Colours(r.right) + [d]);
    TradeCount(g.pool, Colours(g.left), Colours(r.right), d, c);
  }

  /** The colours of a roster are those of all but its last player, then the last player's. */
  lemma ColoursDropLast(s: seq<Player>)
    requires |s| > 0
    ensures Colours(s) == Colours(s[..|s| - 1]) + [s[|s| - 1].color]
  {
    assert s == s[..|s| - 1] + [s[|s| - 1]];
    ColoursConcat(s[..|s| - 1], [s[|s| - 1]]);
  }

  /** Trading `d` out of the rosters for `c` into the pool lowers the count of `d` by one. */
  lemma TradeCount(pool: seq<string>, l: seq<string>, rest: seq<string>, d: string, c: string)
    requires c != d
    ensures (multiset(pool + [c]) + multiset(l) + multiset(rest))[d] + 1
         == (multiset(pool) + multiset(l) + multiset(rest + [d]))[d]
  {
    assert multiset(pool + [c]) == multiset(pool) + multiset{c};
    assert multiset(rest + [d]) == multiset(rest) + multiset{d};
  }
}
